=== FILE: README.md ===
# Ambianzen home page: playback session and playlist store

A Dafny model of the home page of an ambient-sound player. The page shows a
fixed catalog of sounds (`Ambiance` records), plays one of them at a time,
advances through the catalog when a sound ends, plays user playlists as a
queue, and keeps playlists in a local document database.

The model has one module per concern:

- `Wrappers`: `Option`, standing for the source's `null`.
- `Catalog`: the `Ambiance` record, the id lookup `findIndex`, and the catalog
  advance rule.
- `PlaylistStore`: the `Playlist` document, the database as a
  `map<string, Playlist>`, name validation with `trim`, and
  `createPlaylist` / `addToPlaylist` / `deletePlaylist`. The per-sound duration
  policy is stated against an independent sum, `TotalOf`.
- `DurationFormat`: `formatDuration` over whole seconds, proved against a
  parser of the `m:ss` shape.
- `Session`: the page's playback fields as an immutable record. Each page
  method is one pure transition, and so is each notification from the audio
  library. An audio handle (a Howl) is an abstract record in a pool that only
  grows. It has a status (`Playing`, `Paused`, `Stopped`), a flag saying
  whether it carries the session callbacks that `playSound` attaches, and the
  playlist indices its `end` listeners were registered with.
- `SessionProperties`: lemmas relating several transitions. They cover the
  catalog advance on end, the walk through a playlist snapshot, and the ways
  the page can leave more than one handle audible.
- `Home`: the page as session plus database, with an `Op` per public method or
  notification and `Step`/`Run` over them. It holds the run-level theorems.

Two behaviours are modelled as written:

- `playNext` makes a playlist handle active without stopping the previous one.
  Single-live (only the active handle is live) is therefore proved only for
  runs that never start a playlist (`Home.CatalogOnlyRunKeepsSingleLive`). The
  lemmas `PlayPlaylistLeavesPreviousLive`, `TwoSessionHandlesAfterPlaylist` and
  `StaleListenerAdvancesNewPlaylist` show how it fails once a playlist starts.
- When the current sound's id is not in the catalog, the lookup returns -1 and
  the advance plays the first catalog entry (`CatalogEndFromUnknownSound`).

Further behaviours of the page that the model keeps:

- The page has no load token and discards no late notification.
- A failed advance does not stop the session. It plays entry 0 or does nothing.
- Playlist advance runs through `end` listeners that read whatever playlist is
  current when they fire.
- The page has no operation that removes a sound from a playlist.
- `addToPlaylist` adds 180 to the stored `totalDuration`; it does not recompute
  it. From a consistent document (one mp3 track, total 180), adding a second
  mp3 gives 360. A document whose total is 0 but which already holds an mp3
  ends at 180.

## Model

| member | source | states |
|---|---|---|
| Catalog.FindIndex | src/app/home/home.page.ts:128 | returns the first index whose id matches, and -1 exactly when no entry has that id |
| Catalog.NextInCatalog | src/app/home/home.page.ts:126-133 | the sound chosen is always a catalog entry; an id missing from the catalog makes the choice the first entry (none for an empty catalog) |
| Catalog.NextAfterIndex | src/app/home/home.page.ts:128-131 | with unique ids, after entry i comes entry i+1, and after the last entry nothing (no wrap-around) |
| Catalog.NextFromFirstOccurrence | src/app/home/home.page.ts:128-131 | for any catalog, the advance continues after the first entry carrying the current sound's id, and finds nothing when that entry is the last |
| Catalog.DuplicateIdCycles | src/app/home/home.page.ts:128-131 | in a catalog `[a, b, c]` where `c` repeats `a`'s id, the entry after `c` is `b` and the entry after `b` is `c`, so the advance alternates for ever |
| Catalog.NextIsNoneOnlyAtEnd | src/app/home/home.page.ts:129-130 | with unique ids, no next sound exactly when the current sound is the last entry or the catalog is empty |
| PlaylistStore.Trim | src/app/home/home.page.ts:170 | the trimmed name is empty exactly when every character is white space; otherwise it starts and ends with a non-white-space character |
| PlaylistStore.CreatePlaylist | src/app/home/home.page.ts:169-178 | a blank name or an id already in use leaves the store unchanged; otherwise exactly one document is added, with the given name and description, no sounds and total 0, and existing documents are untouched; keys and aggregates stay consistent |
| PlaylistStore.AddToPlaylist | src/app/home/home.page.ts:185-188 | sounds become the old sounds followed by the new one; total rises by 180 for an mp3 and 0 otherwise; the document is written back under its id and no other document changes; a consistent document stays consistent |
| PlaylistStore.DeletePlaylist | src/app/home/home.page.ts:191-192 | the id is gone, every other document is unchanged, and removing an absent id changes nothing |
| PlaylistStore.TotalIsPerMp3 | src/app/home/home.page.ts:187 | the summed per-sound contributions equal 180 times the number of mp3 sounds |
| PlaylistStore.AddAllFromEmpty | src/app/home/home.page.ts:185-187 | appending to a document with no sounds and total 0 keeps the sounds in insertion order and the total at 180 per mp3 sound, and keeps id, name and description |
| PlaylistStore.AddAllFromCreated | src/app/home/home.page.ts:169-188 | starting from a created playlist, any sequence of additions keeps the sounds in insertion order and the total at 180 per mp3 sound |
| DurationFormat.NatToString | src/app/home/home.page.ts:166 | a number prints as a non-empty string of digits with no leading zero |
| DurationFormat.NatToStringRoundTrip | src/app/home/home.page.ts:166 | reading the printed digits back gives the number |
| DurationFormat.FormatDuration | src/app/home/home.page.ts:163-167 | the text is the minutes `d / 60`, a colon, and two digits worth `d % 60` (so in 0..59), the first of them '0' exactly when the seconds are below ten |
| DurationFormat.FormatParseRoundTrip | src/app/home/home.page.ts:163-167 | parsing the formatted text gives back the duration |
| DurationFormat.FormatInjective | src/app/home/home.page.ts:163-167 | distinct durations format to distinct text |
| Session.Init | src/app/home/home.page.ts:36-47 | the page starts with no handle, no active handle, no current playlist, no current sound, not playing, and the single-live property holds |
| Session.PlaySound | src/app/home/home.page.ts:79-109 | the previously active handle is stopped and otherwise kept as it was; a new session handle for the sound is built, plays and becomes active; the sound becomes current; no other handle and no other field changes; single-live is preserved |
| Session.PauseSound | src/app/home/home.page.ts:144-149 | with an active handle it stops playing and `isPlaying` is false, the handle keeps its source, callbacks and end listeners, and nothing else changes; without one the state is unchanged |
| Session.ResumeSound | src/app/home/home.page.ts:119-124 | with an active handle it plays and `isPlaying` is true, the handle keeps its source, callbacks and end listeners, and nothing else changes; without one the state is unchanged |
| Session.TogglePlayPause | src/app/home/home.page.ts:111-117 | with an active handle `isPlaying` flips, and the handle stops playing when it was believed playing and plays otherwise; without one the state is unchanged |
| Session.StopSound | src/app/home/home.page.ts:151-161 | with an active handle it is stopped (keeping its source, callbacks and end listeners), active and current sound become null, progress, duration and time become 0, `isPlaying` false, and nothing else changes; under single-live nothing is left live; without an active handle the state is unchanged |
| Session.PlayNextSound | src/app/home/home.page.ts:126-133 | no current sound, or no next catalog entry, leaves the state unchanged; otherwise the next entry becomes current and a new handle for it plays and is active |
| Session.PlayNext | src/app/home/home.page.ts:201-206 | an index past the playlist changes nothing; otherwise that handle becomes active, plays and gains an end listener for the index; the previous active handle is not stopped |
| Session.PlayPlaylist | src/app/home/home.page.ts:195-199 | an empty playlist changes nothing; otherwise one new handle per sound is built in order from the sounds at call time, the first plays and is active, the others are not started, and no earlier handle is touched |
| Session.RunEndListeners | src/app/home/home.page.ts:205 | running the listeners leaves the current playlist, current sound, `isPlaying` and progress unchanged, and with no current playlist it changes nothing |
| Session.SoundEnded | src/app/home/home.page.ts:101-105 | only a playing handle ends, otherwise nothing changes; after a session handle ends `isPlaying` is false and `progress` 0, since the catalog advance that follows changes neither; the catalog and current playlist stay; single-live is kept when no playlist is current |
| Session.SoundPlayStarted | src/app/home/home.page.ts:94-97 | the play notification of a session handle sets `isPlaying`; it is delivered once per play and never changes a handle's status |
| SessionProperties.PlaySoundLeavesExactlyOneLive | src/app/home/home.page.ts:79-108 | from a single-live state, after `playSound` exactly one handle is live: the new one |
| SessionProperties.CatalogEndAdvances | src/app/home/home.page.ts:101-133 | when any playing session handle ends while catalog entry i is current, the active handle is stopped and entry i+1 plays next; after the last entry nothing plays and the current sound stays; in both cases the ended handle is stopped, `isPlaying` is false and progress 0 |
| SessionProperties.CatalogEndAfterPlaylist | src/app/home/home.page.ts:101-105 | after a playlist has started, a catalog sound chosen with `playSound` is still followed by the next catalog entry when it ends |
| SessionProperties.LeftoverSessionHandleAdvances | src/app/home/home.page.ts:101-105 | after `playSound(sounds[0])`, `playPlaylist(p)`, `playSound(sounds[1])`, the end of the first handle stops `sounds[1]` midway and plays `sounds[2]` |
| SessionProperties.CatalogEndFromUnknownSound | src/app/home/home.page.ts:101-131 | when the current sound is missing from the catalog, the end of any playing session handle starts the first catalog entry |
| SessionProperties.PlayPlaylistStartsWalk | src/app/home/home.page.ts:195-206 | starting a non-empty playlist begins a walk of its call-time sounds at index 0 |
| SessionProperties.EndOfPlaylistHandle | src/app/home/home.page.ts:205 | the end of a playlist handle whose listener was registered for index i stops it and runs `playNext(i + 1)` |
| SessionProperties.PlayNextContinuesWalk | src/app/home/home.page.ts:201-204 | stopping the walk's handle at index i and running `playNext(i + 1)` puts the walk at i+1 with that handle playing |
| SessionProperties.PlaylistEndAdvances | src/app/home/home.page.ts:201-206 | the end of the handle at index i moves the walk to i+1; after the last index only the ended handle changes |
| SessionProperties.PlaylistVisitsInOrder | src/app/home/home.page.ts:201-206 | along any sequence of end notifications, the j-th state plays index i+j of the snapshot |
| SessionProperties.PlaylistPlaysSnapshotInOrder | src/app/home/home.page.ts:195-206 | along one end per sound, the j-th state's active handle plays the j-th sound of the playlist as it was when it started |
| SessionProperties.LastEndSilences | src/app/home/home.page.ts:202 | the end of the last handle leaves every handle of the playlist stopped |
| SessionProperties.PlaylistStopsAfterLast | src/app/home/home.page.ts:201-206 | after one end per sound no handle of the playlist is live, and the last handle stays active, so the walk does not start over |
| SessionProperties.PlayPlaylistLeavesPreviousLive | src/app/home/home.page.ts:195-204 | a live handle active before `playPlaylist` stays live beside the playlist's first handle, so single-live fails |
| SessionProperties.TwoSessionHandlesAfterPlaylist | src/app/home/home.page.ts:79-84 | `playSound`, `playPlaylist`, `playSound` leaves both sounds' session handles playing |
| SessionProperties.StaleListenerAdvancesNewPlaylist | src/app/home/home.page.ts:203-205 | the end of a handle from an earlier playlist advances the later playlist to index 1 while that playlist's first handle keeps playing |
| Home.SessionStep | src/app/home/home.page.ts:79-206 | every playback operation keeps handle references inside the pool, and database operations leave the session unchanged |
| Home.StoreStep | src/app/home/home.page.ts:169-193 | playback operations leave the database unchanged; database operations keep documents under their own ids and keep totals consistent |
| Home.Step | src/app/home/home.page.ts:79-206 | playback operations leave the database alone and database operations leave the session alone; keys and aggregates stay consistent |
| Home.StepKeepsSingleLive | src/app/home/home.page.ts:79-161 | every operation except `playPlaylist` keeps single-live and an empty current playlist |
| Home.CatalogOnlyRunKeepsSingleLive | src/app/home/home.page.ts:79-161 | any run without `playPlaylist` keeps single-live |
| Home.FreshPageCatalogOnly | src/app/home/home.page.ts:36-161 | from a fresh page, a run without `playPlaylist` never has two live handles at once |
| Home.RunKeepsStoreInvariants | src/app/home/home.page.ts:169-193 | every run keeps documents under their own ids with consistent totals, given consistent documents passed to `addToPlaylist` |
| Home.SnapshotSurvivesAdd | src/app/home/home.page.ts:185-206 | adding a sound to the playing playlist changes the stored document but not the track that plays after the first one ends |

## Left out

- Audio decoding and the handle's real lifecycle belong to the audio library. A handle is a status record, and the model treats `play()` on a playing handle as no change. The library instead starts a second voice of the same file, so `resumeSound` while the handle plays and `isPlaying` is false (as during a playlist, whose handles have no play callback) makes it audible twice. Single-live counts handles, not voices.
- The `onload` and `onloaderror` callbacks, the duration they capture (`currentSoundDuration`) and the error log are left out. Load failure is not modelled.
- `updateProgress` is left out: floating-point division by a duration that may be 0, and a timer that reschedules itself. `progress`, `currentSoundDuration` and `currentTime` are only reset, never computed.
- The pause notification is not a separate transition. The library raises it inside `pause()`, and its only effect (`isPlaying := false`) is also applied by `pauseSound`.
- Session.SoundPlayStarted: the notification is assumed to arrive at most once per `play()` and only while the handle still plays. Its call to `updateProgress` is left out.
- The database is synchronous. Its asynchronous completion, revision numbers, revision conflicts on update, storage errors, and the reload of the page's `playlists` list after each write are left out.
- PlaylistStore.AddToPlaylist: the in-place update of the caller's copy is returned as a value. It is not shown to happen when the write fails, because write failure is not modelled.
- PlaylistStore.CreatePlaylist: the store map is keyed by the document's `id` field, whereas the database keys documents by `_id`, which the page never sets; the rejection that a document without `_id` would meet is not modelled, and a repeated `id` is modelled as a conflict instead.
- PlaylistStore.CreatePlaylist: the timestamp id is a parameter. Resetting the name and description input fields is UI state and is left out.
- DurationFormat.FormatDuration: covers whole non-negative seconds only. Fractional and negative durations are left out (floating point), and so is exponent notation for minute counts of 10^21 and above.
- Catalog.NextAfterIndex and Catalog.NextIsNoneOnlyAtEnd assume unique catalog ids, which the page never checks; with repeated ids the lookup restarts from the first occurrence (`NextFromFirstOccurrence`, `DuplicateIdCycles`), and the catalog-advance lemmas built on them (`CatalogEndAdvances`) say nothing for such a catalog.
- `loadSounds` (an HTTP fetch) is left out; the catalog is an input. Also left out: `openDetails` and its modal, the sound-details component and its test, and the Capacitor configuration.
- Load-token cancellation and any locking or concurrency guarantee are left out because the code implements none of them.

=== FILE: catalog.dfy ===
/** The static sound catalog: the `Ambiance` record and the catalog advance rule
    used when a sound started from the catalog ends. */
module Catalog {
  import opened Wrappers

  /** One catalog entry. The source calls the format tag `type`, a Dafny keyword,
      so it is `kind` here. */
  datatype Ambiance = Ambiance(
    id: int,
    code: string,
    titre: string,
    auteur: string,
    descriptif: string,
    source: string,
    motsCles: seq<string>,
    src: string,
    img: string,
    kind: string)

  /** Directory every audio file is resolved against. */
  const AudioDir: string := "assets/audio/"

  /** The locator handed to the audio library for a sound. */
  function AudioPath(a: Ambiance): string
  {
    AudioDir + a.src
  }

  /** Catalog ids are unique (the catalog file is trusted to guarantee it). */
  predicate UniqueIds(sounds: seq<Ambiance>)
  {
    forall i, j :: 0 <= i < |sounds| && 0 <= j < |sounds| && sounds[i].id == sounds[j].id ==> i == j
  }

  /** `findIndex` by id: the first index holding `id`, or -1 when there is none. */
  function FindIndex(sounds: seq<Ambiance>, id: int): (r: int)
    ensures -1 <= r < |sounds|
    ensures r == -1 <==> forall k :: 0 <= k < |sounds| ==> sounds[k].id != id
    ensures r >= 0 ==> sounds[r].id == id
    ensures r >= 0 ==> forall k :: 0 <= k < r ==> sounds[k].id != id
  {
    if |sounds| == 0 then -1
    else if sounds[0].id == id then 0
    else
      var r := FindIndex(sounds[1..], id);
      if r == -1 then -1 else r + 1
  }

  /** The sound `playNextSound` starts after `current`: the element right after
      the first entry with the same id. An id missing from the catalog makes the
      lookup -1, so the first catalog entry is chosen. */
  function NextInCatalog(sounds: seq<Ambiance>, current: Ambiance): (r: Option<Ambiance>)
    ensures r.Some? ==> r.value in sounds
    ensures (forall k :: 0 <= k < |sounds| ==> sounds[k].id != current.id) ==>
              r == (if |sounds| == 0 then None else Some(sounds[0]))
  {
    var i := FindIndex(sounds, current.id);
    if i + 1 < |sounds| then Some(sounds[i + 1]) else None
  }

  /** Advancing from the entry at index `i` of a catalog with unique ids yields
      the entry at `i + 1`, and nothing after the last entry (no wrap-around). */
  lemma NextAfterIndex(sounds: seq<Ambiance>, i: nat, current: Ambiance)
    requires UniqueIds(sounds)
    requires i < |sounds| && sounds[i].id == current.id
    ensures i + 1 < |sounds| ==> NextInCatalog(sounds, current) == Some(sounds[i + 1])
    ensures i + 1 == |sounds| ==> NextInCatalog(sounds, current) == None
  {
    var r := FindIndex(sounds, current.id);
    assert r != -1;
    assert r == i;
  }

  /** Without any assumption on the catalog, advancing from `current` continues
      after the FIRST entry carrying its id, wherever `current` itself sits. */
  lemma NextFromFirstOccurrence(sounds: seq<Ambiance>, j: nat, current: Ambiance)
    requires j < |sounds| && sounds[j].id == current.id
    requires forall k :: 0 <= k < j ==> sounds[k].id != current.id
    ensures j + 1 < |sounds| ==> NextInCatalog(sounds, current) == Some(sounds[j + 1])
    ensures j + 1 == |sounds| ==> NextInCatalog(sounds, current) == None
  {
    assert FindIndex(sounds, current.id) == j;
  }

  /** With a repeated id the advance never reaches the end: in a catalog
      `[a, b, c]` where `c` repeats `a`'s id, the entry after `c` is `b` and the
      entry after `b` is `c`, so the two alternate for ever. */
  lemma DuplicateIdCycles(a: Ambiance, b: Ambiance, c: Ambiance)
    requires a.id == c.id && a.id != b.id
    ensures NextInCatalog([a, b, c], c) == Some(b)
    ensures NextInCatalog([a, b, c], b) == Some(c)
  {
    NextFromFirstOccurrence([a, b, c], 0, c);
    NextFromFirstOccurrence([a, b, c], 1, b);
  }

  /** Advance finds nothing only when `current` is the last catalog entry or the
      catalog is empty. */
  lemma NextIsNoneOnlyAtEnd(sounds: seq<Ambiance>, current: Ambiance)
    requires UniqueIds(sounds)
    ensures NextInCatalog(sounds, current) == None <==>
              |sounds| == 0 || sounds[|sounds| - 1].id == current.id
  {
    if |sounds| > 0 {
      var r := FindIndex(sounds, current.id);
      if sounds[|sounds| - 1].id == current.id {
        NextAfterIndex(sounds, |sounds| - 1, current);
      } else if r >= 0 {
        assert r != |sounds| - 1;
      }
    }
  }
}

=== FILE: duration_format.dfy ===
/** `formatDuration`: whole seconds rendered as minutes, a colon, and the
    seconds of the last minute padded to two digits (`m:ss`). A parser for
    that shape is the inverse the formatter is proved against. */
module DurationFormat {
  import opened Wrappers

  predicate IsDigit(c: char)
  {
    '0' <= c <= '9'
  }

  predicate AllDigits(s: string)
  {
    forall i :: 0 <= i < |s| ==> IsDigit(s[i])
  }

  function DigitChar(d: nat): (c: char)
    requires d < 10
  {
    "0123456789"[d]
  }

  function DigitValue(c: char): (d: nat)
    requires IsDigit(c)
  {
    (c as int) - ('0' as int)
  }

  /** The decimal value of a digit string (0 for the empty string). */
  function DigitsValue(s: string): nat
    requires AllDigits(s)
  {
    if |s| == 0 then 0 else 10 * DigitsValue(s[..|s| - 1]) + DigitValue(s[|s| - 1])
  }

  /** The decimal rendering of a natural number, as template interpolation
      prints it: digits only, at least one, and no leading zero. */
  function NatToString(n: nat): (r: string)
    ensures |r| >= 1 && AllDigits(r)
    ensures |r| > 1 ==> r[0] != '0'
    decreases n
  {
    if n < 10 then [DigitChar(n)] else NatToString(n / 10) + [DigitChar(n % 10)]
  }

  /** Reading back a rendered number gives the number. */
  lemma {:induction false} NatToStringRoundTrip(n: nat)
    ensures DigitsValue(NatToString(n)) == n
    decreases n
  {
    var s := NatToString(n);
    if n >= 10 {
      NatToStringRoundTrip(n / 10);
      assert s[..|s| - 1] == NatToString(n / 10);
      assert s[|s| - 1] == DigitChar(n % 10);
    }
  }

  /** The seconds part: `seconds` with a leading '0' when below ten. */
  function PadSeconds(seconds: nat): string
    requires seconds < 60
  {
    (if seconds < 10 then "0" else "") + NatToString(seconds)
  }

  /** `formatDuration(duration)` for a whole, non-negative number of seconds. */
  function FormatDuration(duration: nat): (r: string)
    ensures |r| >= 4 && r[|r| - 3] == ':'
    ensures AllDigits(r[..|r| - 3]) && DigitsValue(r[..|r| - 3]) == duration / 60
    ensures AllDigits(r[|r| - 2..]) && DigitsValue(r[|r| - 2..]) == duration % 60
    ensures r[|r| - 2] == '0' <==> duration % 60 < 10
    ensures |r| > 4 ==> r[0] != '0'
  {
    var minutes := NatToString(duration / 60);
    var seconds := PadSeconds(duration % 60);
    var r := minutes + ":" + seconds;
    NatToStringRoundTrip(duration / 60);
    NatToStringRoundTrip(duration % 60);
    assert r[..|r| - 3] == minutes;
    assert r[|r| - 2..] == seconds;
    assert duration % 60 < 10 ==> seconds == "0" + NatToString(duration % 60) && DigitsValue(seconds) == duration % 60;
    assert duration % 60 >= 10 ==> seconds == NatToString(duration % 60) && |seconds| == 2;
    r
  }

  /** Reads an `m:ss` string back into seconds; `None` for anything else. */
  function ParseDuration(s: string): (r: Option<nat>)
    ensures r.Some? ==> |s| >= 4 && s[|s| - 3] == ':'
  {
    if |s| >= 4 && s[|s| - 3] == ':' && AllDigits(s[..|s| - 3]) && AllDigits(s[|s| - 2..])
       && DigitsValue(s[|s| - 2..]) < 60
    then Some(60 * DigitsValue(s[..|s| - 3]) + DigitsValue(s[|s| - 2..]))
    else None
  }

  /** Formatting loses nothing: the seconds are recovered from the text. */
  lemma FormatParseRoundTrip(duration: nat)
    ensures ParseDuration(FormatDuration(duration)) == Some(duration)
  {
  }

  /** Distinct durations format differently. */
  lemma FormatInjective(a: nat, b: nat)
    requires FormatDuration(a) == FormatDuration(b)
    ensures a == b
  {
    FormatParseRoundTrip(a);
    FormatParseRoundTrip(b);
  }
}

=== FILE: home.dfy ===
/** The home page as a whole: its playback session and its playlist database,
    driven by the page's public methods and by notifications from the audio
    library. */
module Home {
  import opened Wrappers
  import opened Catalog
  import opened PlaylistStore
  import opened Session
  import opened SessionProperties

  datatype Home = Home(session: State, db: Store)

  /** One call of a page method, or one notification from the audio library
      about the handle at a pool position. */
  datatype Op =
    | PlaySoundOp(sound: Ambiance)
    | TogglePlayPauseOp
    | PauseSoundOp
    | ResumeSoundOp
    | StopSoundOp
    | PlayNextSoundOp
    | PlayPlaylistOp(playlist: Playlist)
    | PlayNextOp(index: nat)
    | CreatePlaylistOp(id: string, name: string, description: string)
    | AddToPlaylistOp(target: Playlist, added: Ambiance)
    | DeletePlaylistOp(removed: Playlist)
    | SoundEndedOp(handle: nat)
    | SoundPlayStartedOp(handle: nat)
  {
    /** Operations on the playlist database. */
    predicate IsStoreOp()
    {
      CreatePlaylistOp? || AddToPlaylistOp? || DeletePlaylistOp?
    }
  }

  /** The effect of an operation on the playback session. Database operations
      leave it alone; a notification about a position with no handle cannot be
      raised and changes nothing. */
  function SessionStep(st: State, op: Op): (r: State)
    requires Valid(st)
    ensures Valid(r)
    ensures op.IsStoreOp() ==> r == st
  {
    match op
    case PlaySoundOp(sound) => PlaySound(st, sound)
    case TogglePlayPauseOp => TogglePlayPause(st)
    case PauseSoundOp => PauseSound(st)
    case ResumeSoundOp => ResumeSound(st)
    case StopSoundOp => StopSound(st)
    case PlayNextSoundOp => PlayNextSound(st)
    case PlayPlaylistOp(p) => PlayPlaylist(st, p)
    case PlayNextOp(i) => PlayNext(st, i)
    case SoundEndedOp(h) => if h < |st.handles| then SoundEnded(st, h) else st
    case SoundPlayStartedOp(h) => if h < |st.handles| then SoundPlayStarted(st, h) else st
    case _ => st
  }

  /** The effect of an operation on the playlist database. Playback operations
      leave it alone. */
  function StoreStep(db: Store, op: Op): (r: Store)
    ensures !op.IsStoreOp() ==> r == db
    ensures WellKeyed(db) ==> WellKeyed(r)
    ensures AllConsistent(db) && (op.AddToPlaylistOp? ==> Consistent(op.target)) ==> AllConsistent(r)
  {
    match op
    case CreatePlaylistOp(id, name, description) => CreatePlaylist(db, id, name, description)
    case AddToPlaylistOp(p, sound) => AddToPlaylist(db, p, sound).1
    case DeletePlaylistOp(p) => DeletePlaylist(db, p)
    case _ => db
  }

  /** Applies one operation to the page. */
  function Step(home: Home, op: Op): (r: Home)
    requires Valid(home.session)
    ensures Valid(r.session)
    ensures op.IsStoreOp() ==> r.session == home.session
    ensures !op.IsStoreOp() ==> r.db == home.db
    ensures WellKeyed(home.db) ==> WellKeyed(r.db)
    ensures AllConsistent(home.db) && (op.AddToPlaylistOp? ==> Consistent(op.target)) ==> AllConsistent(r.db)
  {
    Home(SessionStep(home.session, op), StoreStep(home.db, op))
  }

  /** Applies operations in order. */
  function Run(home: Home, ops: seq<Op>): (r: Home)
    requires Valid(home.session)
    ensures Valid(r.session)
    decreases |ops|
  {
    if |ops| == 0 then home else Run(Step(home, ops[0]), ops[1..])
  }

  /** Without `playPlaylist`, every operation keeps the active handle the only
      live one and the current playlist empty. */
  lemma StepKeepsSingleLive(home: Home, op: Op)
    requires Valid(home.session) && SingleLive(home.session) && home.session.currentPlaylist == []
    requires !op.PlayPlaylistOp?
    ensures SingleLive(Step(home, op).session) && Step(home, op).session.currentPlaylist == []
  {
  }

  /** As long as no playlist is started, at most one handle is ever live: the
      active one. */
  lemma {:induction false} CatalogOnlyRunKeepsSingleLive(home: Home, ops: seq<Op>)
    requires Valid(home.session) && SingleLive(home.session) && home.session.currentPlaylist == []
    requires forall k :: 0 <= k < |ops| ==> !ops[k].PlayPlaylistOp?
    ensures SingleLive(Run(home, ops).session)
    decreases |ops|
  {
    if |ops| > 0 {
      StepKeepsSingleLive(home, ops[0]);
      CatalogOnlyRunKeepsSingleLive(Step(home, ops[0]), ops[1..]);
    }
  }

  /** From a freshly constructed page, a run without `playPlaylist` never has
      two live handles. */
  lemma FreshPageCatalogOnly(sounds: seq<Ambiance>, db: Store, ops: seq<Op>)
    requires forall k :: 0 <= k < |ops| ==> !ops[k].PlayPlaylistOp?
    ensures var r := Run(Home(Init(sounds), db), ops).session;
            forall i, j :: 0 <= i < j < |r.handles| ==> !(Live(r.handles[i]) && Live(r.handles[j]))
  {
    CatalogOnlyRunKeepsSingleLive(Home(Init(sounds), db), ops);
  }

  /** Every run keeps each document stored under its id with its aggregate in
      agreement with its sounds, provided every document handed to
      `addToPlaylist` was consistent. */
  lemma {:induction false} RunKeepsStoreInvariants(home: Home, ops: seq<Op>)
    requires Valid(home.session) && WellKeyed(home.db) && AllConsistent(home.db)
    requires forall k :: 0 <= k < |ops| && ops[k].AddToPlaylistOp? ==> Consistent(ops[k].target)
    ensures WellKeyed(Run(home, ops).db) && AllConsistent(Run(home, ops).db)
    decreases |ops|
  {
    if |ops| > 0 {
      RunKeepsStoreInvariants(Step(home, ops[0]), ops[1..]);
    }
  }

  /** The playlist being walked is a snapshot: adding a sound to the stored
      document while its first track plays changes the document but not the
      track that follows. */
  lemma SnapshotSurvivesAdd(home: Home, p: Playlist, extra: Ambiance)
    requires PlayingAt(home.session, p.sounds, 0) && |p.sounds| >= 2
    ensures var h1 := Step(home, AddToPlaylistOp(p, extra));
            var h2 := Step(h1, SoundEndedOp(home.session.currentPlaylist[0]));
            && h1.db[p.id].sounds == p.sounds + [extra]
            && h2.session.activeSound == Some(home.session.currentPlaylist[1])
            && h2.session.handles[home.session.currentPlaylist[1]].src == AudioPath(p.sounds[1])
  {
    var h1 := Step(home, AddToPlaylistOp(p, extra));
    assert h1.session == home.session;
    var cp := home.session.currentPlaylist;
    assert SessionStep(h1.session, SoundEndedOp(cp[0])) == SoundEnded(home.session, cp[0]);
    PlaylistEndAdvances(home.session, p.sounds, 0);
  }
}

=== FILE: playlist_store.dfy ===
/** The playlist documents and the document database they are written to. The
    database is a map from document id to document; every `put` and `remove`
    is applied atomically and synchronously. */
module PlaylistStore {
  import opened Catalog

  /** A persisted playlist document. */
  datatype Playlist = Playlist(
    id: string,
    name: string,
    description: string,
    sounds: seq<Ambiance>,
    totalDuration: int)

  type Store = map<string, Playlist>

  /** Every document is stored under its own id. */
  predicate WellKeyed(store: Store)
  {
    forall k :: k in store ==> store[k].id == k
  }

  // ---------------------------------------------------------------------------
  // Name validation: `String.prototype.trim`

  /** The characters `trim` strips: white space and line terminators. */
  predicate IsTrimmable(c: char)
  {
    || c == '\t' || c == '\n' || c == '\U{B}' || c == '\U{C}' || c == '\r' || c == ' '
    || c == '\U{A0}' || c == '\U{1680}' || ('\U{2000}' <= c <= '\U{200A}')
    || c == '\U{2028}' || c == '\U{2029}' || c == '\U{202F}' || c == '\U{205F}'
    || c == '\U{3000}' || c == '\U{FEFF}'
  }

  /** Number of trimmable characters at the start of `s`. */
  function LeadingSpace(s: string): (k: nat)
    ensures k <= |s|
    ensures forall j :: 0 <= j < k ==> IsTrimmable(s[j])
    ensures k < |s| ==> !IsTrimmable(s[k])
  {
    if |s| == 0 || !IsTrimmable(s[0]) then 0 else 1 + LeadingSpace(s[1..])
  }

  /** Number of trimmable characters at the end of `s`. */
  function TrailingSpace(s: string): (k: nat)
    ensures k <= |s|
    ensures forall j :: |s| - k <= j < |s| ==> IsTrimmable(s[j])
    ensures k < |s| ==> !IsTrimmable(s[|s| - 1 - k])
  {
    if |s| == 0 || !IsTrimmable(s[|s| - 1]) then 0 else 1 + TrailingSpace(s[..|s| - 1])
  }

  /** `s.trim()`: `s` without its leading and trailing white space. */
  function Trim(s: string): (r: string)
    ensures |r| <= |s|
    ensures |r| == 0 <==> forall j :: 0 <= j < |s| ==> IsTrimmable(s[j])
    ensures |r| > 0 ==> !IsTrimmable(r[0]) && !IsTrimmable(r[|r| - 1])
  {
    var a := LeadingSpace(s);
    var b := TrailingSpace(s[a..]);
    var r := s[a..|s| - b];
    assert a < |s| ==> |r| > 0 by {
      if a < |s| {
        assert !IsTrimmable(s[a..][0]);
        assert b < |s[a..]|;
      }
    }
    assert |r| > 0 ==> !IsTrimmable(r[|r| - 1]) by {
      if |r| > 0 {
        assert r[|r| - 1] == s[a..][|s[a..]| - 1 - b];
      }
    }
    r
  }

  // ---------------------------------------------------------------------------
  // Duration bookkeeping

  /** Seconds a sound adds to a playlist's `totalDuration`: a fixed placeholder
      of 180 for the "mp3" format, nothing for any other format. */
  function DurationOf(a: Ambiance): nat
  {
    if a.kind == "mp3" then 180 else 0
  }

  /** Sum of the per-sound contributions, the value `totalDuration` should hold. */
  function TotalOf(sounds: seq<Ambiance>): nat
  {
    if |sounds| == 0 then 0 else TotalOf(sounds[..|sounds| - 1]) + DurationOf(sounds[|sounds| - 1])
  }

  /** Number of "mp3" sounds. */
  function CountMp3(sounds: seq<Ambiance>): nat
  {
    if |sounds| == 0 then 0
    else CountMp3(sounds[..|sounds| - 1]) + (if sounds[|sounds| - 1].kind == "mp3" then 1 else 0)
  }

  /** A document whose aggregate agrees with its sounds. */
  predicate Consistent(p: Playlist)
  {
    p.totalDuration == TotalOf(p.sounds)
  }

  /** Every stored document is consistent. */
  predicate AllConsistent(store: Store)
  {
    forall k :: k in store ==> Consistent(store[k])
  }

  /** The aggregate is 180 seconds per "mp3" sound. */
  lemma {:induction false} TotalIsPerMp3(sounds: seq<Ambiance>)
    ensures TotalOf(sounds) == 180 * CountMp3(sounds)
  {
    if |sounds| > 0 {
      TotalIsPerMp3(sounds[..|sounds| - 1]);
    }
  }

  // ---------------------------------------------------------------------------
  // Operations

  /** `createPlaylist(name, description)` with the fresh document id `id`. A name
      that trims to nothing is rejected before anything is written. Writing a new
      document under an id already present is a conflict and writes nothing. */
  function CreatePlaylist(store: Store, id: string, name: string, description: string): (r: Store)
    ensures Trim(name) == "" ==> r == store
    ensures id in store ==> r == store
    ensures Trim(name) != "" && id !in store ==>
              && r.Keys == store.Keys + {id}
              && r[id].name == name && r[id].description == description
              && r[id].sounds == [] && r[id].totalDuration == 0
              && (forall k :: k in store ==> r[k] == store[k])
    ensures WellKeyed(store) ==> WellKeyed(r)
    ensures AllConsistent(store) ==> AllConsistent(r)
  {
    if Trim(name) == "" then store
    else if id in store then store
    else store[id := Playlist(id, name, description, [], 0)]
  }

  /** The document with `sound` appended and its contribution added. */
  function WithSound(p: Playlist, sound: Ambiance): Playlist
  {
    p.(sounds := p.sounds + [sound], totalDuration := p.totalDuration + DurationOf(sound))
  }

  /** `addToPlaylist(playlist, sound)`: appends the sound to the document, raises
      its aggregate by the sound's contribution, and writes the whole document back
      under its id. Returns the updated document and the updated store. */
  function AddToPlaylist(store: Store, p: Playlist, sound: Ambiance): (r: (Playlist, Store))
    ensures r.0.sounds == p.sounds + [sound]
    ensures r.0.totalDuration == p.totalDuration + (if sound.kind == "mp3" then 180 else 0)
    ensures r.0.id == p.id && r.0.name == p.name && r.0.description == p.description
    ensures r.1.Keys == store.Keys + {p.id} && r.1[p.id] == r.0
    ensures forall k :: k in store && k != p.id ==> r.1[k] == store[k]
    ensures Consistent(p) ==> Consistent(r.0)
    ensures WellKeyed(store) ==> WellKeyed(r.1)
    ensures AllConsistent(store) && Consistent(p) ==> AllConsistent(r.1)
  {
    var updated := WithSound(p, sound);
    assert updated.sounds[..|updated.sounds| - 1] == p.sounds;
    (updated, store[p.id := updated])
  }

  /** `deletePlaylist(playlist)`: removes the document; removing an absent id
      leaves the store as it was. */
  function DeletePlaylist(store: Store, p: Playlist): (r: Store)
    ensures p.id !in r
    ensures r.Keys == store.Keys - {p.id}
    ensures forall k :: k in r ==> r[k] == store[k]
    ensures p.id !in store ==> r == store
    ensures WellKeyed(store) ==> WellKeyed(r)
    ensures AllConsistent(store) ==> AllConsistent(r)
  {
    store - {p.id}
  }

  /** Appending sounds one at a time, in order. */
  function AddAll(p: Playlist, sounds: seq<Ambiance>): Playlist
  {
    if |sounds| == 0 then p
    else WithSound(AddAll(p, sounds[..|sounds| - 1]), sounds[|sounds| - 1])
  }

  /** A non-empty sequence is its prefix followed by its last element. */
  lemma SplitLast<T>(s: seq<T>)
    requires |s| > 0
    ensures s[..|s| - 1] + [s[|s| - 1]] == s
  {
  }

  /** Appending to a document with no sounds and a zero aggregate keeps the
      sounds in the order they were added and the aggregate at 180 seconds per
      "mp3" sound; the id, name and description stay. */
  lemma {:induction false} AddAllFromEmpty(p: Playlist, sounds: seq<Ambiance>)
    requires p.sounds == [] && p.totalDuration == 0
    ensures var q := AddAll(p, sounds);
            && q.sounds == sounds
            && q.totalDuration == 180 * CountMp3(sounds)
            && q.id == p.id && q.name == p.name && q.description == p.description
  {
    if |sounds| > 0 {
      var init := sounds[..|sounds| - 1];
      var last := sounds[|sounds| - 1];
      AddAllFromEmpty(p, init);
      SplitLast(sounds);
    }
  }

  /** Starting from a freshly created document, any sequence of additions keeps
      the sounds in insertion order and the aggregate at 180 seconds per "mp3"
      sound. */
  lemma AddAllFromCreated(store: Store, id: string, name: string, description: string, sounds: seq<Ambiance>)
    requires Trim(name) != "" && id !in store
    ensures var p := AddAll(CreatePlaylist(store, id, name, description)[id], sounds);
            && p.sounds == sounds
            && p.totalDuration == 180 * CountMp3(sounds)
            && p.id == id && p.name == name
  {
    AddAllFromEmpty(CreatePlaylist(store, id, name, description)[id], sounds);
  }
}

=== FILE: session.dfy ===
/** The playback session of the home page: the catalog, every audio handle the
    page has created, which one is active, the playlist being walked, and the
    progress fields shown to the user. Each page method is one pure transition;
    notifications from the audio library are transitions too. */
module Session {
  import opened Wrappers
  import opened Catalog
  import opened PlaylistStore

  /** Playback status of one audio handle. */
  datatype Status = Playing | Paused | Stopped

  /** An abstract audio handle (a Howl).
      - `sessionCallbacks`: built by PlaySound, so its play/pause/end
        notifications run the session's handlers;
      - `endListeners`: the playlist indices PlayNext registered for its end;
      - `playReported`: the play notification for the latest `play()` has
        already been delivered. */
  datatype Handle = Handle(
    src: string,
    status: Status,
    sessionCallbacks: bool,
    endListeners: seq<nat>,
    playReported: bool)

  /** The two handles differ at most in their playback status. */
  predicate SameButStatus(h: Handle, g: Handle)
  {
    && h.src == g.src
    && h.sessionCallbacks == g.sessionCallbacks
    && h.endListeners == g.endListeners
    && h.playReported == g.playReported
  }

  /** A handle that is audible or resumable. */
  predicate Live(h: Handle)
  {
    h.status != Stopped
  }

  /** A handle as `new Howl(...)` returns it: loaded lazily, not yet playing. */
  function NewHandle(src: string, sessionCallbacks: bool): Handle
  {
    Handle(src, Stopped, sessionCallbacks, [], false)
  }

  /** `play()`: the handle plays, and a play notification is due. */
  function PlayHandle(h: Handle): Handle
  {
    h.(status := Playing, playReported := false)
  }

  /** `pause()`: only a playing handle changes. */
  function PauseHandle(h: Handle): Handle
  {
    if h.status == Playing then h.(status := Paused) else h
  }

  /** `stop()`. */
  function StopHandle(h: Handle): Handle
  {
    h.(status := Stopped)
  }

  /** The page's playback fields. Handles are identified by their position in
      `handles`, which only grows. */
  datatype State = State(
    sounds: seq<Ambiance>,
    handles: seq<Handle>,
    activeSound: Option<nat>,
    currentPlaylist: seq<nat>,
    currentSound: Option<Ambiance>,
    progress: real,
    currentSoundDuration: real,
    currentTime: real,
    isPlaying: bool)

  /** Every handle reference points into the pool. */
  predicate Valid(st: State)
  {
    && (st.activeSound.Some? ==> st.activeSound.value < |st.handles|)
    && (forall k :: 0 <= k < |st.currentPlaylist| ==> st.currentPlaylist[k] < |st.handles|)
  }

  /** The only handle that can be heard or resumed is the active one. */
  predicate SingleLive(st: State)
  {
    forall i :: 0 <= i < |st.handles| && Live(st.handles[i]) ==> st.activeSound == Some(i)
  }

  /** The page as it is constructed, with the catalog already loaded. */
  function Init(sounds: seq<Ambiance>): (r: State)
    ensures Valid(r) && SingleLive(r)
    ensures r.sounds == sounds && r.activeSound.None? && r.currentSound.None? && !r.isPlaying
    ensures r.handles == [] && r.currentPlaylist == []
  {
    State(sounds, [], None, [], None, 0.0, 0.0, 0.0, false)
  }

  /** The state with handle `h` stopped. */
  function StopAt(st: State, h: nat): State
    requires h < |st.handles|
  {
    st.(handles := st.handles[h := StopHandle(st.handles[h])])
  }

  /** `playSound(sound)`: stops the active handle if there is one, then builds a
      handle with the session callbacks for the sound, makes it active, plays it
      and records the sound as current. */
  function PlaySound(st: State, sound: Ambiance): (r: State)
    requires Valid(st)
    ensures Valid(r)
    ensures |r.handles| == |st.handles| + 1
    ensures r.activeSound == Some(|st.handles|)
    ensures r.currentSound == Some(sound)
    ensures var h := r.handles[|st.handles|];
              h.src == AudioPath(sound) && h.status == Playing && h.sessionCallbacks && h.endListeners == []
    ensures st.activeSound.Some? ==> !Live(r.handles[st.activeSound.value])
    ensures st.activeSound.Some? ==> SameButStatus(r.handles[st.activeSound.value], st.handles[st.activeSound.value])
    ensures forall i :: 0 <= i < |st.handles| && st.activeSound != Some(i) ==> r.handles[i] == st.handles[i]
    ensures r.(handles := st.handles, activeSound := st.activeSound, currentSound := st.currentSound) == st
    ensures SingleLive(st) ==> SingleLive(r)
  {
    var hs := if st.activeSound.None? then st.handles
      else st.handles[st.activeSound.value := StopHandle(st.handles[st.activeSound.value])];
    var started := PlayHandle(NewHandle(AudioPath(sound), true));
    st.(handles := hs + [started], activeSound := Some(|hs|), currentSound := Some(sound))
  }

  /** `pauseSound()`: pauses the active handle and clears `isPlaying`; without an
      active handle nothing happens. The pause notification the library raises
      for a session handle also clears `isPlaying`, so it adds nothing. */
  function PauseSound(st: State): (r: State)
    requires Valid(st)
    ensures Valid(r)
    ensures |r.handles| == |st.handles|
    ensures st.activeSound.None? ==> r == st
    ensures st.activeSound.Some? ==>
              && !r.isPlaying
              && r.handles[st.activeSound.value].status != Playing
              && Live(r.handles[st.activeSound.value]) == Live(st.handles[st.activeSound.value])
              && SameButStatus(r.handles[st.activeSound.value], st.handles[st.activeSound.value])
              && r.(handles := st.handles, isPlaying := st.isPlaying) == st
    ensures forall i :: 0 <= i < |st.handles| && st.activeSound != Some(i) ==> r.handles[i] == st.handles[i]
    ensures SingleLive(st) ==> SingleLive(r)
  {
    match st.activeSound
    case None => st
    case Some(a) => st.(handles := st.handles[a := PauseHandle(st.handles[a])], isPlaying := false)
  }

  /** `resumeSound()`: plays the active handle again and sets `isPlaying`; without
      an active handle nothing happens. */
  function ResumeSound(st: State): (r: State)
    requires Valid(st)
    ensures Valid(r)
    ensures |r.handles| == |st.handles|
    ensures st.activeSound.None? ==> r == st
    ensures st.activeSound.Some? ==>
              && r.isPlaying
              && r.handles[st.activeSound.value].status == Playing
              && r.handles[st.activeSound.value].src == st.handles[st.activeSound.value].src
              && r.handles[st.activeSound.value].sessionCallbacks == st.handles[st.activeSound.value].sessionCallbacks
              && r.handles[st.activeSound.value].endListeners == st.handles[st.activeSound.value].endListeners
              && r.(handles := st.handles, isPlaying := st.isPlaying) == st
    ensures forall i :: 0 <= i < |st.handles| && st.activeSound != Some(i) ==> r.handles[i] == st.handles[i]
    ensures SingleLive(st) ==> SingleLive(r)
  {
    match st.activeSound
    case None => st
    case Some(a) => st.(handles := st.handles[a := PlayHandle(st.handles[a])], isPlaying := true)
  }

  /** `togglePlayPause()`: pause when the page believes it is playing, resume
      otherwise. */
  function TogglePlayPause(st: State): (r: State)
    requires Valid(st)
    ensures Valid(r)
    ensures |r.handles| == |st.handles|
    ensures st.activeSound.None? ==> r == st
    ensures st.activeSound.Some? ==> r.isPlaying == !st.isPlaying
    ensures st.activeSound.Some? && st.isPlaying ==> r.handles[st.activeSound.value].status != Playing
    ensures st.activeSound.Some? && !st.isPlaying ==> r.handles[st.activeSound.value].status == Playing
    ensures r.activeSound == st.activeSound && r.currentSound == st.currentSound
    ensures SingleLive(st) ==> SingleLive(r)
  {
    if st.isPlaying then PauseSound(st) else ResumeSound(st)
  }

  /** `stopSound()`: with an active handle, stops it and resets every playback
      field; without one, changes nothing. */
  function StopSound(st: State): (r: State)
    requires Valid(st)
    ensures Valid(r)
    ensures |r.handles| == |st.handles|
    ensures st.activeSound.None? ==> r == st
    ensures st.activeSound.Some? ==>
              && r.activeSound.None? && r.currentSound.None?
              && r.progress == 0.0 && r.currentSoundDuration == 0.0 && r.currentTime == 0.0
              && !r.isPlaying
              && !Live(r.handles[st.activeSound.value])
              && SameButStatus(r.handles[st.activeSound.value], st.handles[st.activeSound.value])
              && r.sounds == st.sounds && r.currentPlaylist == st.currentPlaylist
    ensures forall i :: 0 <= i < |st.handles| && st.activeSound != Some(i) ==> r.handles[i] == st.handles[i]
    ensures SingleLive(st) ==> forall i :: 0 <= i < |r.handles| ==> !Live(r.handles[i])
  {
    match st.activeSound
    case None => st
    case Some(a) =>
      st.(handles := st.handles[a := StopHandle(st.handles[a])],
          activeSound := None, currentSound := None,
          progress := 0.0, currentSoundDuration := 0.0, currentTime := 0.0,
          isPlaying := false)
  }

  /** `playNextSound()`: with a current sound, plays the catalog entry after it
      (see `NextInCatalog`) if there is one; otherwise does nothing. */
  function PlayNextSound(st: State): (r: State)
    requires Valid(st)
    ensures Valid(r)
    ensures st.currentSound.None? ==> r == st
    ensures st.currentSound.Some? && NextInCatalog(st.sounds, st.currentSound.value).None? ==> r == st
    ensures st.currentSound.Some? && NextInCatalog(st.sounds, st.currentSound.value).Some? ==>
              && r.currentSound == NextInCatalog(st.sounds, st.currentSound.value)
              && r.currentSound.value in st.sounds
              && |r.handles| == |st.handles| + 1
              && r.activeSound == Some(|st.handles|)
              && (st.activeSound.Some? ==> !Live(r.handles[st.activeSound.value]))
              && r.handles[|st.handles|].status == Playing
              && r.handles[|st.handles|].src == AudioPath(r.currentSound.value)
    ensures r.sounds == st.sounds && r.currentPlaylist == st.currentPlaylist && r.isPlaying == st.isPlaying
    ensures r.progress == st.progress
    ensures |r.handles| >= |st.handles|
    ensures forall i :: 0 <= i < |st.handles| && st.activeSound != Some(i) ==> r.handles[i] == st.handles[i]
    ensures SingleLive(st) ==> SingleLive(r)
  {
    match st.currentSound
    case None => st
    case Some(current) =>
      match NextInCatalog(st.sounds, current)
      case None => st
      case Some(next) => PlaySound(st, next)
  }

  /** `playNext(index)`: past the end of the playlist, nothing; otherwise the
      handle at `index` becomes active and plays, and an end listener for `index`
      is added to it. The previously active handle is not stopped. */
  function PlayNext(st: State, index: nat): (r: State)
    requires Valid(st)
    ensures Valid(r)
    ensures |r.handles| == |st.handles|
    ensures index >= |st.currentPlaylist| ==> r == st
    ensures index < |st.currentPlaylist| ==>
              var h := st.currentPlaylist[index];
              && r.activeSound == Some(h)
              && r.handles[h].status == Playing
              && r.handles[h].endListeners == st.handles[h].endListeners + [index]
              && r.handles[h].src == st.handles[h].src
              && r.handles[h].sessionCallbacks == st.handles[h].sessionCallbacks
              && (forall i :: 0 <= i < |st.handles| && i != h ==> r.handles[i] == st.handles[i])
    ensures r.(handles := st.handles, activeSound := st.activeSound) == st
  {
    if index >= |st.currentPlaylist| then st
    else
      var h := st.currentPlaylist[index];
      var played := PlayHandle(st.handles[h]);
      st.(handles := st.handles[h := played.(endListeners := played.endListeners + [index])],
          activeSound := Some(h))
  }

  /** `playPlaylist(playlist)`: an empty playlist changes nothing. Otherwise one
      new handle per sound is built from the sounds as they are at this moment,
      that sequence becomes the current playlist, and its first handle is played.
      Nothing already playing is stopped. */
  function PlayPlaylist(st: State, p: Playlist): (r: State)
    requires Valid(st)
    ensures Valid(r)
    ensures |p.sounds| == 0 ==> r == st
    ensures |p.sounds| > 0 ==>
              && |r.handles| == |st.handles| + |p.sounds|
              && |r.currentPlaylist| == |p.sounds|
              && (forall k :: 0 <= k < |p.sounds| ==>
                    && r.currentPlaylist[k] == |st.handles| + k
                    && r.handles[r.currentPlaylist[k]].src == AudioPath(p.sounds[k])
                    && !r.handles[r.currentPlaylist[k]].sessionCallbacks)
              && r.activeSound == Some(|st.handles|)
              && r.handles[|st.handles|].status == Playing
              && r.handles[|st.handles|].endListeners == [0]
              && (forall k :: 0 < k < |p.sounds| ==> r.handles[r.currentPlaylist[k]].endListeners == [])
              && (forall k :: 0 < k < |p.sounds| ==> !Live(r.handles[r.currentPlaylist[k]]))
              && (forall i :: 0 <= i < |st.handles| ==> r.handles[i] == st.handles[i])
              && r.(handles := st.handles, activeSound := st.activeSound, currentPlaylist := st.currentPlaylist) == st
  {
    if |p.sounds| == 0 then st
    else
      var base := |st.handles|;
      var created := seq(|p.sounds|, k requires 0 <= k < |p.sounds| => NewHandle(AudioPath(p.sounds[k]), false));
      var loaded := st.(handles := st.handles + created, currentPlaylist := seq(|p.sounds|, k => base + k));
      PlayNext(loaded, 0)
  }

  /** Runs the end listeners a handle collected, in registration order; the
      listener registered for index `i` calls `playNext(i + 1)` against whatever
      playlist is current when it runs. */
  function RunEndListeners(st: State, listeners: seq<nat>): (r: State)
    requires Valid(st)
    ensures Valid(r)
    ensures |st.currentPlaylist| == 0 ==> r == st
    ensures |r.handles| == |st.handles|
    ensures r.currentPlaylist == st.currentPlaylist && r.currentSound == st.currentSound
    ensures r.isPlaying == st.isPlaying && r.progress == st.progress && r.sounds == st.sounds
    decreases |listeners|
  {
    if |listeners| == 0 then st
    else RunEndListeners(PlayNext(st, listeners[0] + 1), listeners[1..])
  }

  /** The library reports that handle `h` reached its end. Only a playing handle
      can end; it becomes stopped. A session handle then clears `isPlaying` and
      `progress` and advances through the catalog; afterwards every end listener
      of the handle runs. */
  function SoundEnded(st: State, h: nat): (r: State)
    requires Valid(st) && h < |st.handles|
    ensures Valid(r)
    ensures st.handles[h].status != Playing ==> r == st
    ensures st.handles[h].status == Playing && st.handles[h].sessionCallbacks ==> !r.isPlaying && r.progress == 0.0
    ensures r.currentPlaylist == st.currentPlaylist && r.sounds == st.sounds
    ensures SingleLive(st) && st.currentPlaylist == [] ==> SingleLive(r)
  {
    if st.handles[h].status != Playing then st
    else
      var stopped := StopAt(st, h);
      var advanced :=
        if st.handles[h].sessionCallbacks then PlayNextSound(stopped.(isPlaying := false, progress := 0.0))
        else stopped;
      RunEndListeners(advanced, st.handles[h].endListeners)
  }

  /** The library reports that the latest `play()` of handle `h` started. It is
      delivered once per `play()` and only while the handle still plays; for a
      session handle it sets `isPlaying`. */
  function SoundPlayStarted(st: State, h: nat): (r: State)
    requires Valid(st) && h < |st.handles|
    ensures Valid(r)
    ensures |r.handles| == |st.handles|
    ensures st.handles[h].status != Playing || st.handles[h].playReported ==> r == st
    ensures st.handles[h].status == Playing && !st.handles[h].playReported ==>
              && r.handles[h].playReported
              && r.isPlaying == (st.isPlaying || st.handles[h].sessionCallbacks)
    ensures r.activeSound == st.activeSound && r.currentPlaylist == st.currentPlaylist
    ensures forall i :: 0 <= i < |st.handles| ==> r.handles[i].status == st.handles[i].status
    ensures SingleLive(st) ==> SingleLive(r)
  {
    var hd := st.handles[h];
    if hd.status != Playing || hd.playReported then st
    else
      st.(handles := st.handles[h := hd.(playReported := true)],
          isPlaying := st.isPlaying || hd.sessionCallbacks)
  }
}

=== FILE: session_properties.dfy ===
/** Properties of the playback session that relate several transitions: the
    catalog advance on end, the walk through a playlist, and the places where
    more than one handle stays audible. */
module SessionProperties {
  import opened Wrappers
  import opened Catalog
  import opened PlaylistStore
  import opened Session

  // ---------------------------------------------------------------------------
  // Starting a sound

  /** From a state where only the active handle is live, `playSound` leaves
      exactly one live handle: the one it just built. */
  lemma PlaySoundLeavesExactlyOneLive(st: State, sound: Ambiance)
    requires Valid(st) && SingleLive(st)
    ensures var r := PlaySound(st, sound);
            forall i :: 0 <= i < |r.handles| ==> (Live(r.handles[i]) <==> i == |st.handles|)
  {
  }

  // ---------------------------------------------------------------------------
  // Catalog advance

  /** The end handler is a closure over the page, not over the handle: when any
      playing session handle `h` ends while catalog entry `i` is the current
      sound, the page clears `isPlaying` and `progress`, stops the active handle
      and plays entry `i + 1`; after the last entry nothing new plays and the
      current sound stays as it was. The handles built by `playSound` carry no
      end listener, so this holds whether or not a playlist is current. */
  lemma CatalogEndAdvances(st: State, h: nat, i: nat)
    requires Valid(st) && UniqueIds(st.sounds)
    requires i < |st.sounds| && st.currentSound == Some(st.sounds[i])
    requires h < |st.handles| && st.handles[h].status == Playing
    requires st.handles[h].sessionCallbacks && st.handles[h].endListeners == []
    ensures var r := SoundEnded(st, h);
            && !r.isPlaying && r.progress == 0.0
            && |r.handles| >= |st.handles| && !Live(r.handles[h])
            && (i + 1 < |st.sounds| ==>
                  && r.currentSound == Some(st.sounds[i + 1])
                  && |r.handles| == |st.handles| + 1
                  && r.activeSound == Some(|st.handles|)
                  && r.handles[|st.handles|].status == Playing
                  && r.handles[|st.handles|].src == AudioPath(st.sounds[i + 1])
                  && (st.activeSound.Some? ==> !Live(r.handles[st.activeSound.value])))
            && (i + 1 == |st.sounds| ==>
                  && r.currentSound == st.currentSound
                  && r.activeSound == st.activeSound
                  && |r.handles| == |st.handles|)
  {
    NextAfterIndex(st.sounds, i, st.sounds[i]);
  }

  /** The catalog advance also runs after a playlist has started: a sound
      picked from the catalog while a playlist is current is still followed by
      the next catalog entry when it ends. */
  lemma CatalogEndAfterPlaylist(sounds: seq<Ambiance>, p: Playlist)
    requires UniqueIds(sounds) && |sounds| >= 2 && |p.sounds| > 0
    ensures var st := PlaySound(PlayPlaylist(Init(sounds), p), sounds[0]);
            var r := SoundEnded(st, st.activeSound.value);
            && st.currentPlaylist != []
            && r.currentSound == Some(sounds[1])
            && r.activeSound == Some(|st.handles|)
            && r.handles[|st.handles|].src == AudioPath(sounds[1])
  {
    var st := PlaySound(PlayPlaylist(Init(sounds), p), sounds[0]);
    CatalogEndAdvances(st, st.activeSound.value, 0);
  }

  /** A session handle left playing by `playPlaylist` still advances the
      catalog when it ends, from whatever sound is current at that moment: after
      `playSound(sounds[0])`, `playPlaylist(p)` and `playSound(sounds[1])`, the
      end of the first handle stops the second sound midway and plays
      `sounds[2]`. */
  lemma LeftoverSessionHandleAdvances(sounds: seq<Ambiance>, p: Playlist)
    requires UniqueIds(sounds) && |sounds| >= 3 && |p.sounds| > 0
    ensures var s1 := PlaySound(Init(sounds), sounds[0]);
            var s2 := PlayPlaylist(s1, p);
            var s3 := PlaySound(s2, sounds[1]);
            var r := SoundEnded(s3, 0);
            && s3.activeSound == Some(|s2.handles|)
            && r.currentSound == Some(sounds[2])
            && !Live(r.handles[|s2.handles|])
            && r.activeSound == Some(|s3.handles|)
            && r.handles[|s3.handles|].src == AudioPath(sounds[2])
  {
    var s1 := PlaySound(Init(sounds), sounds[0]);
    var s2 := PlayPlaylist(s1, p);
    var s3 := PlaySound(s2, sounds[1]);
    CatalogEndAdvances(s3, 0, 1);
  }

  /** A current sound whose id is not in the catalog makes the lookup fail, and
      the end of any playing session handle starts the first catalog entry. */
  lemma CatalogEndFromUnknownSound(st: State, h: nat, current: Ambiance)
    requires Valid(st) && |st.sounds| > 0
    requires forall k :: 0 <= k < |st.sounds| ==> st.sounds[k].id != current.id
    requires st.currentSound == Some(current)
    requires h < |st.handles| && st.handles[h].status == Playing
    requires st.handles[h].sessionCallbacks && st.handles[h].endListeners == []
    ensures var r := SoundEnded(st, h);
            r.currentSound == Some(st.sounds[0]) && r.activeSound == Some(|st.handles|)
  {
  }

  // ---------------------------------------------------------------------------
  // Playlist walk

  /** The session is walking the playlist snapshot `snap` and is at index `i`:
      the current playlist holds one handle per snapshot sound, in order, at
      consecutive pool positions, none of them a session handle; the handle at
      `i` is active and carries the single end listener for `i`; the handles
      before `i` have finished and the handles after `i` have not been started
      and carry no listener. */
  predicate PlaylistAt(st: State, snap: seq<Ambiance>, i: nat)
  {
    && Valid(st)
    && i < |snap| == |st.currentPlaylist|
    && (forall k :: 0 <= k < |snap| ==>
          && st.handles[st.currentPlaylist[k]].src == AudioPath(snap[k])
          && !st.handles[st.currentPlaylist[k]].sessionCallbacks)
    && (forall k :: 0 <= k < |snap| ==> st.currentPlaylist[k] == st.currentPlaylist[0] + k)
    && st.activeSound == Some(st.currentPlaylist[i])
    && st.handles[st.currentPlaylist[i]].endListeners == [i]
    && (forall k :: 0 <= k < i ==> !Live(st.handles[st.currentPlaylist[k]]))
    && (forall k :: i < k < |snap| ==> st.handles[st.currentPlaylist[k]].endListeners == [])
    && (forall k :: i < k < |snap| ==> !Live(st.handles[st.currentPlaylist[k]]))
  }

  /** The handle the walk is currently playing. */
  predicate PlayingAt(st: State, snap: seq<Ambiance>, i: nat)
  {
    PlaylistAt(st, snap, i) && st.handles[st.currentPlaylist[i]].status == Playing
  }

  /** Starting a non-empty playlist begins a walk of its sounds as they are at
      that moment, at index 0. */
  lemma PlayPlaylistStartsWalk(st: State, p: Playlist)
    requires Valid(st) && |p.sounds| > 0
    ensures PlayingAt(PlayPlaylist(st, p), p.sounds, 0)
  {
  }

  /** The end of a playing playlist handle whose only listener is for index
      `i`: the handle stops and `playNext(i + 1)` runs. */
  lemma EndOfPlaylistHandle(st: State, h: nat, i: nat)
    requires Valid(st) && h < |st.handles|
    requires st.handles[h].status == Playing && !st.handles[h].sessionCallbacks
    requires st.handles[h].endListeners == [i]
    ensures SoundEnded(st, h) == PlayNext(StopAt(st, h), i + 1)
  {
    var stopped := StopAt(st, h);
    assert RunEndListeners(stopped, [i]) == RunEndListeners(PlayNext(stopped, i + 1), []);
  }

  /** Stopping the handle at index `i` of the walk and playing the next index
      moves the walk to `i + 1`. */
  lemma PlayNextContinuesWalk(st: State, snap: seq<Ambiance>, i: nat)
    requires PlayingAt(st, snap, i) && i + 1 < |snap|
    ensures PlayingAt(PlayNext(StopAt(st, st.currentPlaylist[i]), i + 1), snap, i + 1)
  {
    var cp := st.currentPlaylist;
    var h := cp[i];
    var h2 := cp[i + 1];
    var r := PlayNext(StopAt(st, h), i + 1);
    assert h2 == h + 1;
    forall k | 0 <= k < |snap|
      ensures r.handles[cp[k]].src == AudioPath(snap[k]) && !r.handles[cp[k]].sessionCallbacks
    {
      assert r.handles[cp[k]].src == st.handles[cp[k]].src;
    }
    forall k | 0 <= k < i + 1
      ensures !Live(r.handles[cp[k]])
    {
      assert cp[k] != h2;
    }
    forall k | i + 1 < k < |snap|
      ensures r.handles[cp[k]].endListeners == []
    {
      assert cp[k] != h2 && cp[k] != h;
    }
  }

  /** When the handle at index `i` of the walk ends, the walk moves to `i + 1`;
      after the last index nothing else plays and only the ended handle changed. */
  lemma PlaylistEndAdvances(st: State, snap: seq<Ambiance>, i: nat)
    requires PlayingAt(st, snap, i)
    ensures i + 1 < |snap| ==> PlayingAt(SoundEnded(st, st.currentPlaylist[i]), snap, i + 1)
    ensures i + 1 == |snap| ==> SoundEnded(st, st.currentPlaylist[i]) == StopAt(st, st.currentPlaylist[i])
  {
    EndOfPlaylistHandle(st, st.currentPlaylist[i], i);
    if i + 1 < |snap| {
      PlayNextContinuesWalk(st, snap, i);
    }
  }

  /** The end notification for the active handle, if there is one. */
  function EndActive(st: State): (r: State)
    requires Valid(st)
    ensures Valid(r)
    ensures r.currentPlaylist == st.currentPlaylist
  {
    match st.activeSound
    case None => st
    case Some(a) => SoundEnded(st, a)
  }

  /** A sequence of states in which each state is the previous one after the
      end notification of its active handle. */
  predicate IsEndTrace(trace: seq<State>)
  {
    forall j :: 0 <= j < |trace| - 1 ==> Link(trace, j)
  }

  /** State `j + 1` of the trace follows from state `j` by one end. */
  predicate Link(trace: seq<State>, j: nat)
    requires j < |trace| - 1
  {
    Valid(trace[j]) && trace[j + 1] == EndActive(trace[j])
  }

  /** Letting the tracks of a playlist run out plays the snapshot's sounds in
      order: the `j`-th state of the trace is playing index `i + j`. */
  lemma {:induction false} PlaylistVisitsInOrder(trace: seq<State>, snap: seq<Ambiance>, i: nat)
    requires |trace| > 0 && IsEndTrace(trace) && PlayingAt(trace[0], snap, i)
    requires i + |trace| <= |snap|
    ensures forall j :: 0 <= j < |trace| ==> PlayingAt(trace[j], snap, i + j)
    decreases |trace|
  {
    if |trace| > 1 {
      var n := |trace|;
      var prefix := trace[..n - 1];
      forall j | 0 <= j < |prefix| - 1
        ensures Link(prefix, j)
      {
        assert Link(trace, j);
      }
      PlaylistVisitsInOrder(prefix, snap, i);
      forall j | 0 <= j < n
        ensures PlayingAt(trace[j], snap, i + j)
      {
        if j < n - 1 {
          assert prefix[j] == trace[j];
        } else {
          assert prefix[n - 2] == trace[n - 2];
          LinkAdvances(trace, snap, i, n - 2);
        }
      }
    }
  }

  /** One link of an end trace advances the walk by one index. */
  lemma LinkAdvances(trace: seq<State>, snap: seq<Ambiance>, i: nat, j: nat)
    requires j < |trace| - 1 && IsEndTrace(trace)
    requires PlayingAt(trace[j], snap, i + j) && i + j + 1 < |snap|
    ensures PlayingAt(trace[j + 1], snap, i + j + 1)
  {
    assert Link(trace, j);
    EndActiveAdvances(trace[j], snap, i + j);
  }

  /** `PlaylistEndAdvances` phrased through the active handle. */
  lemma EndActiveAdvances(st: State, snap: seq<Ambiance>, i: nat)
    requires PlayingAt(st, snap, i) && i + 1 < |snap|
    ensures PlayingAt(EndActive(st), snap, i + 1)
  {
    PlaylistEndAdvances(st, snap, i);
  }

  /** During the walk the active handle plays the snapshot sound at the index. */
  lemma ActiveSourceAt(st: State, snap: seq<Ambiance>, i: nat)
    requires PlaylistAt(st, snap, i)
    ensures st.handles[st.activeSound.value].src == AudioPath(snap[i])
  {
  }

  /** A walk started at index 0 and followed through one end per sound plays
      the snapshot's sounds in order, one per state of the trace. */
  lemma PlaylistPlaysSnapshotInOrder(trace: seq<State>, snap: seq<Ambiance>)
    requires |trace| == |snap| > 0 && IsEndTrace(trace) && PlayingAt(trace[0], snap, 0)
    ensures forall j :: 0 <= j < |trace| ==>
              && trace[j].activeSound.Some? && trace[j].activeSound.value < |trace[j].handles|
              && trace[j].handles[trace[j].activeSound.value].src == AudioPath(snap[j])
  {
    PlaylistVisitsInOrder(trace, snap, 0);
    forall j | 0 <= j < |trace|
      ensures trace[j].activeSound.Some? && trace[j].activeSound.value < |trace[j].handles|
      ensures trace[j].handles[trace[j].activeSound.value].src == AudioPath(snap[j])
    {
      ActiveSourceAt(trace[j], snap, j);
    }
  }

  /** After one end per sound, no handle of the playlist is live and the walk
      does not start over: the last handle stays the active one. */
  lemma PlaylistStopsAfterLast(trace: seq<State>, snap: seq<Ambiance>)
    requires |trace| == |snap| > 0 && IsEndTrace(trace) && PlayingAt(trace[0], snap, 0)
    ensures var last := trace[|trace| - 1];
            && PlaylistAt(last, snap, |snap| - 1)
            && var r := EndActive(last);
            && r.currentPlaylist == last.currentPlaylist
            && r.activeSound == Some(last.currentPlaylist[|snap| - 1])
            && forall k :: 0 <= k < |snap| ==> !Live(r.handles[r.currentPlaylist[k]])
  {
    PlaylistVisitsInOrder(trace, snap, 0);
    var last := trace[|trace| - 1];
    assert PlayingAt(last, snap, |snap| - 1);
    LastEndSilences(last, snap);
  }

  /** The end of the walk's last handle leaves every handle of the playlist
      stopped. */
  lemma LastEndSilences(st: State, snap: seq<Ambiance>)
    requires |snap| > 0 && PlayingAt(st, snap, |snap| - 1)
    ensures var r := EndActive(st);
            && r.currentPlaylist == st.currentPlaylist
            && r.activeSound == st.activeSound
            && forall k :: 0 <= k < |snap| ==> !Live(r.handles[r.currentPlaylist[k]])
  {
    var n := |snap|;
    PlaylistEndAdvances(st, snap, n - 1);
    var r := EndActive(st);
    forall k | 0 <= k < n
      ensures !Live(r.handles[r.currentPlaylist[k]])
    {
      if k < n - 1 {
        assert st.currentPlaylist[k] != st.currentPlaylist[n - 1];
      }
    }
  }

  // ---------------------------------------------------------------------------
  // Where more than one handle stays audible

  /** `playPlaylist` does not stop the handle that was active: it stays live
      next to the playlist's first handle, so the single-live property fails. */
  lemma PlayPlaylistLeavesPreviousLive(st: State, p: Playlist)
    requires Valid(st) && |p.sounds| > 0
    requires st.activeSound.Some? && Live(st.handles[st.activeSound.value])
    ensures var r := PlayPlaylist(st, p);
            && Live(r.handles[st.activeSound.value])
            && Live(r.handles[|st.handles|])
            && r.activeSound == Some(|st.handles|)
            && !SingleLive(r)
  {
  }

  /** Playing a sound, then a playlist, then another sound leaves both sounds'
      session handles playing: the second `playSound` stops only the playlist
      handle that had become active. */
  lemma TwoSessionHandlesAfterPlaylist(st: State, first: Ambiance, p: Playlist, second: Ambiance)
    requires Valid(st) && |p.sounds| > 0
    ensures var s1 := PlaySound(st, first);
            var s2 := PlayPlaylist(s1, p);
            var s3 := PlaySound(s2, second);
            && s3.handles[|st.handles|].sessionCallbacks && s3.handles[|st.handles|].status == Playing
            && s3.handles[|s2.handles|].sessionCallbacks && s3.handles[|s2.handles|].status == Playing
            && |st.handles| != |s2.handles|
  {
  }

  /** An end listener calls `playNext` on whatever playlist is current when it
      fires: a handle left over from an earlier playlist advances the walk of a
      later one, while that walk's own handle keeps playing. */
  lemma StaleListenerAdvancesNewPlaylist(st: State, p1: Playlist, p2: Playlist)
    requires Valid(st) && |p1.sounds| > 0 && |p2.sounds| > 1
    ensures var s1 := PlayPlaylist(st, p1);
            var s2 := PlayPlaylist(s1, p2);
            var s3 := SoundEnded(s2, |st.handles|);
            && s3.activeSound == Some(s2.currentPlaylist[1])
            && s3.handles[s2.currentPlaylist[1]].src == AudioPath(p2.sounds[1])
            && s3.handles[s2.currentPlaylist[1]].status == Playing
            && s3.handles[s2.currentPlaylist[0]].status == Playing
  {
    var s1 := PlayPlaylist(st, p1);
    var s2 := PlayPlaylist(s1, p2);
    var h := |st.handles|;
    assert s2.handles[h] == s1.handles[h];
    assert s2.handles[h].endListeners == [0];
    var stopped := s2.(handles := s2.handles[h := StopHandle(s2.handles[h])]);
    assert RunEndListeners(stopped, [0]) == RunEndListeners(PlayNext(stopped, 1), []);
  }
}

=== FILE: wrappers.dfy ===
/** Option type standing for the source's `null` or `undefined`. */
module Wrappers {

  /** `None` stands for the source's `null` / `undefined`. */
  datatype Option<+T> = None | Some(value: T)
}
